=== FILE: README.md ===
# Updatable text encoder: a Dafny model

This project models the core of `Updatable_TextTransformer`, a Driverless AI text transformer. It turns a text column into
TF-IDF (or count) vectors reduced by a truncated SVD. It can also be *updated* with a new batch of documents instead of
being refitted from scratch. Its state is the vectorizer's vocabulary and stop list, the document frequencies that its
`idf_` vector encodes, the document count `N_`, the SVD basis `components_`, the accumulated term-document matrix
`tf_idf[col]`, and the target history. That state is persisted with `joblib` between runs.

The model follows `fit_transform` (lines 216-395 of `transformers/nlp/continuous_TextTransformer.py`) step by step:

- `Vocabulary` covers the merge loop. A term the old vocabulary lacks takes the next id and leaves the stop list. A known
  term keeps its id.
- `Frequencies` covers the document-frequency update. The batch frequencies of known terms are placed at their old ids
  (`remapped_freq`) and added to the old ones. The frequencies of new terms are appended in the order the terms are added
  (`new_freq`).
- `Matrices` covers the accumulated matrix. The stored rows are padded with zero columns up to the batch width, then the
  batch rows are stacked below them.
- `Projection` covers the incremental basis update `components - step * (components - batch components)` on the shared
  columns. The columns of new terms are taken from the batch basis.
- `Encoder` covers the rest:
  - how a persisted blob is loaded: a dict of parts, or a bare legacy transformer;
  - the fresh fit when nothing was loaded, which sets `N_` to the batch size;
  - how the vocabulary step and the basis step compose;
  - the choice between an exact refit and the blend;
  - the `append` result with the concatenated target;
  - what is persisted;
  - the cached transformer's `fit_transform`.

Library calls are not modelled. Their results are fields of `Encoder.Batch`:

- the vectorizer fitted on the batch: its vocabulary in iteration order, and the document frequency of each term;
- the batch transformed by the column's vectorizer after the vocabulary update;
- the SVD fit, as a function from the matrix it is fitted on to the basis it finds;
- the transformer fitted on the batch alone.

Python exceptions become `Results.Failure`:

- numpy or scipy refusing mismatched shapes;
- the `IndexError` of `remapped_freq`;
- `pd.concat` of an empty list.

## Behaviour worth knowing

- **What selects refit or blend.** The exact refit is selected by the presence of a stored matrix for the column; the
  `append` flag plays no part in it. The refit fits the SVD on the whole accumulated matrix, while the blend fits it on
  the batch alone. `append` only decides what is returned. With `append` on the blend path, `pd.concat([])` fails
  (`Encoder.AppendNeedsHistory`).
- **Legacy blobs.** A legacy blob (a bare transformer) is loaded with no stored matrix. Its first update therefore *blends*
  the basis rather than refitting it; later updates refit (`Encoder.LegacyLoadBlends`, `Encoder.StoredMatrixSelectsRefit`).
- **Basis of a different rank.** There is no fallback when the SVD fitted on the batch has a different number of
  components from the stored basis: the blend fails on the shape mismatch.
- **Stop list.** A stop word is revoked only when its term is *new* to the vocabulary. A term that is both in the
  vocabulary and in the stop list keeps its stop status (`Vocabulary.MergeVocabulary`).
- **Width of the accumulated matrix.** It equals the vocabulary size only while the column's reduction step is a
  `CPUTruncatedSVD`. Otherwise the matrix is never updated while the vocabulary grows, so `Encoder.Consistent` states
  "at most the vocabulary size".
- **Target history.** The in-memory target history is never updated. Only the persisted blob receives the concatenated
  labels (`Encoder.AppendExtendsTarget`).
- **Updates without append.** They persist only this call's labels. A loaded target history is dropped from the blob,
  while the persisted accumulated matrix keeps every row it had (`Encoder.PlainUpdateDropsHistory`).
- **Constructor hyperparameters.** The constructor forwards fixed hyperparameters to its base class (lines 204-206), not
  the ones it is given. Among them is `tf_idf=True`, which the base class hands to the `TextTransformer` it builds when
  there is no load path (lines 79-86). Such a transformer is never `loaded` (line 74), so each of its fits takes the
  fresh-fit branch (lines 375-384). The blobs it writes hold a `TextTransformer` with `tf_idf=True`, and line 223 reads
  that flag on a later update: a transformer loaded from such a blob takes the TF-IDF branch. The count branch
  (lines 271-299: vocabulary merge only, `N_` unchanged) runs only on a transformer loaded from a blob written with
  `tf_idf=False`, for example by the cached transformer. `TextModel.tfIdf` is left free, so the model covers both
  branches. The other forwarded hyperparameters only feed library fitting.

## Model

| member | source | states |
|---|---|---|
| Vocabulary.NewTerms | transformers/nlp/continuous_TextTransformer.py:251-256 | the terms the loop adds are exactly the batch terms the old vocabulary lacks, and there are no more of them than batch terms |
| Vocabulary.Merge | transformers/nlp/continuous_TextTransformer.py:247-262 | the merged vocabulary holds exactly the old and the batch terms; old ids are unchanged; the j-th new term gets id \|old\| + j; the counter ends at the merged size; the stop list loses exactly the new terms |
| Vocabulary.MergeVocabulary | transformers/nlp/continuous_TextTransformer.py:286-299 | count branch: old terms keep their ids and their stop status; new terms get ids at or above the old size and leave the stop list; no term is ever added to the stop list |
| Vocabulary.MergeContiguous | transformers/nlp/continuous_TextTransformer.py:249-256 | if the old ids are exactly 0..n-1, one term each, then so are the merged ids; new terms come after the old ones |
| Vocabulary.NewIdsFollowBatchOrder | transformers/nlp/continuous_TextTransformer.py:251-256 | two new terms get ids in the order the batch vocabulary lists them |
| Vocabulary.MergeIdempotent | transformers/nlp/continuous_TextTransformer.py:286-299 | merging the same batch a second time changes neither vocabulary nor stop list |
| Frequencies.Realign | transformers/nlp/continuous_TextTransformer.py:245-260 | when the loop does not fail, remapped_freq is as long as the old frequency vector and new_freq has one entry per new term |
| Frequencies.MergeDf | transformers/nlp/continuous_TextTransformer.py:264-265 | the merged frequency vector has one entry per old id plus one per new term |
| Frequencies.RealignPlaces | transformers/nlp/continuous_TextTransformer.py:251-259 | with contiguous ids and a batch vocabulary without repeats, the loop never fails; each known term's batch frequency lands at its old id; each new term's lands at its position among the new terms |
| Frequencies.MergeDfAtOldId | transformers/nlp/continuous_TextTransformer.py:257-265 | at the old id of a known term the merged vector holds its old frequency plus its batch frequency |
| Frequencies.MergeDfAtNewId | transformers/nlp/continuous_TextTransformer.py:257-265 | at position \|old\| + j the merged vector holds the batch frequency of the j-th new term |
| Frequencies.MergeDfAt | transformers/nlp/continuous_TextTransformer.py:257-265 | the merged frequency at a term's merged id is its old frequency plus its batch frequency |
| Frequencies.MergeDfAdditive | transformers/nlp/continuous_TextTransformer.py:239-269 | the frequency merge succeeds and is as long as the merged vocabulary; every term's merged frequency is its old one plus its batch one |
| Matrices.PadRight | transformers/nlp/continuous_TextTransformer.py:309-313 | padding keeps the height and every old entry, and fills the added columns with zeros |
| Matrices.Accumulate | transformers/nlp/continuous_TextTransformer.py:307-316 | succeeds exactly when the batch is at least as wide as the stored matrix (a shape error otherwise); the result is batch-wide and the heights add; old entries are kept, padded entries are zero, and the bottom rows are the batch |
| Matrices.AccumulateSplits | transformers/nlp/continuous_TextTransformer.py:307-316 | the update can be undone: the top rows cropped to the old width are the stored matrix, and the bottom rows are the batch |
| Matrices.AccumulateTwice | transformers/nlp/continuous_TextTransformer.py:307-316 | two updates in a row equal one update with the two batches stacked: the history keeps every row in arrival order |
| Projection.Blend | transformers/nlp/continuous_TextTransformer.py:336-355 | succeeds exactly when the two bases have equal height and the batch basis is at least as wide (a shape error otherwise); the result has the batch basis's shape and takes the batch columns beyond the old width |
| Projection.BlendStepZero | transformers/nlp/continuous_TextTransformer.py:344-355 | with step 0 the shared columns are the old basis |
| Projection.BlendStepOne | transformers/nlp/continuous_TextTransformer.py:344-355 | with step 1 the result is the batch basis |
| Projection.BlendBounded | transformers/nlp/continuous_TextTransformer.py:344-349 | for a step in [0, 1] every shared entry lies between its old and its batch value, and its distance to the batch value shrinks by the factor 1 - step |
| Encoder.Load | transformers/nlp/continuous_TextTransformer.py:79-99 | without a load path the unfitted transformer is used and nothing counts as loaded; a dict blob restores transformer, matrix and target exactly; a bare transformer comes with no matrix and no target |
| Encoder.AppendTarget | transformers/nlp/continuous_TextTransformer.py:359-360 | with a history, the result is the history followed by the call's labels, or by a single None when there are none; without a history it is the call's labels |
| Encoder.UpdateVocabulary | transformers/nlp/continuous_TextTransformer.py:222-299 | old ids are kept; the vocabulary holds exactly the old and the batch terms; the stop list loses exactly the new terms; N_ grows by the batch size for TF-IDF and is unchanged for counts; the count branch cannot fail |
| Encoder.AdaptBasis | transformers/nlp/continuous_TextTransformer.py:301-355 | with no SVD step nothing changes; with a stored matrix the batch is accumulated, the basis becomes the SVD fitted on the accumulated matrix, the whole history plus the batch, and with append that accumulated matrix is the one to encode; without one the basis is blended with the SVD fitted on the batch alone and the batch matrix is stored |
| Encoder.FitTransform | transformers/nlp/continuous_TextTransformer.py:216-395 | a fresh fit always succeeds, installs the transformer fitted on the batch with N_ set to the batch size, and stores the batch matrix; an update keeps old ids and the loaded target, and adds the batch size to N_ only for TF-IDF; a blob is persisted exactly when a save path is set, holding the new state and the returned or given labels; the history is returned exactly for an update with append, and the matrix it encodes is the new accumulated matrix |
| Encoder.CachedFitTransform | transformers/nlp/continuous_TextTransformer.py:103-109 | the cached transformer always installs the transformer fitted on the batch, with N_ set to the batch size, and persists that bare transformer exactly when a save path is set |
| Encoder.VocabularyStep | transformers/nlp/continuous_TextTransformer.py:239-269 | on a consistent model the vocabulary step succeeds, keeps ids contiguous and one frequency per id, and sums the frequencies |
| Encoder.BasisStep | transformers/nlp/continuous_TextTransformer.py:301-355 | when the stored arrays are no wider than the batch arrays, the basis step succeeds and leaves basis and stored matrix batch-wide |
| Encoder.UpdatePreservesConsistency | transformers/nlp/continuous_TextTransformer.py:216-362 | an update of a consistent encoder with fitting library outputs succeeds (append needs an SVD step and a stored matrix); it stays consistent, grows the vocabulary by exactly the new terms, keeps the accumulated matrix exactly as wide as the vocabulary when there is an SVD step, and sums the document frequencies |
| Encoder.RefitCountsDocuments | transformers/nlp/continuous_TextTransformer.py:221-323 | on the refit path of a TF-IDF column an update succeeds, and N_ and the height of the accumulated matrix both grow by the number of documents in the batch |
| Encoder.AppendNeedsHistory | transformers/nlp/continuous_TextTransformer.py:336-358 | an append without an SVD step or without a stored matrix fails in the final concatenation |
| Encoder.LegacyLoadBlends | transformers/nlp/continuous_TextTransformer.py:336-355 | after loading a bare transformer, the first update blends the basis and stores the batch matrix |
| Encoder.StoredMatrixSelectsRefit | transformers/nlp/continuous_TextTransformer.py:307-323 | with a basis and a stored matrix, a successful update stacks the batch below the stored rows and sets the basis to the SVD fitted on that whole accumulated matrix |
| Encoder.AppendExtendsTarget | transformers/nlp/continuous_TextTransformer.py:356-371 | with append, the returned and persisted labels are the loaded history followed by the call's labels; the in-memory history is unchanged |
| Encoder.PlainUpdateDropsHistory | transformers/nlp/continuous_TextTransformer.py:386-394 | an update without append returns the encoded batch and persists only this call's labels, with the updated accumulated matrix |
| Encoder.CachedBlobBlends | transformers/nlp/continuous_TextTransformer.py:90-109 | the bare transformer the cached transformer saves loads with no accumulated matrix and no target and the batch size as N_; the first update from it blends the basis and stores the batch matrix |

## Left out

- Fitting the vectorizers and the truncated SVD, and transforming text: these are library calls (scikit-learn and the
  host's `TextTransformer`). Their results are inputs of the model.
- The `idf_` ↔ document-frequency encoding (`inverse_idf`, lines 210-214, and line 268): it is floating-point
  arithmetic with rounding. The model keeps the document frequencies as natural numbers.
- `joblib` file I/O, `get_value` and the host configuration (lines 18-26, 76-77): the load result and whether a save path
  is set are parameters.
- `transform`, `to_mojo` and the pandas and datatable conversions: they only call into the library.
- More than one text column: the transformer declares `max_cols=1` (line 67), so one column is modelled.
- The in-memory state after an exception: the Python object keeps the changes it made before raising, such as a vocabulary
  committed before a failing basis step. The model returns a failure without a state.
- Projection.Blend: numpy broadcasting when one of the bases has a single component or a single column is not modelled.
  Such shapes are treated as a mismatch.
- Projection.Blend: the blended basis is not re-orthogonalised, and neither is the source's.
- Projection.Blend: matrix and basis entries are idealised reals; float64 rounding is not modelled. BlendStepOne (step 1
  gives exactly the batch basis) and the (1 - step) shrink factor of BlendBounded hold exactly only over the reals.
- The scaling step after the SVD (`pipes[col][2]`) and the column names of the returned frame: the model returns the
  accumulated matrix and the labels that the source encodes and returns.
- transformers/hierarchical/log_scale_target_encoding.py and scorers/classification/binary/balanced_accuracy.py are not
  part of this model.

=== FILE: encoder.dfy ===
/**
 * The updatable text encoder for one text column: how a persisted state is
 * loaded, and what one `fit_transform` call does to the state: a fresh fit when
 * nothing was loaded, otherwise the vocabulary and statistics merge followed by
 * either an exact SVD refit on the accumulated matrix or an incremental blend.
 *
 * The vectorizer and SVD fits are library calls; their results arrive as
 * fields of `Batch`.
 */
module Encoder {
  import opened Results
  import opened Vocabulary
  import opened Frequencies
  import opened Matrices
  import opened Projection

  /** A target value; `NoneObject` is the Python `None` that `np.hstack` appends when a call brings no labels. */
  datatype Label = Value(v: real) | NoneObject

  /** The fitted pipeline of the wrapped text transformer for the column. */
  datatype TextModel = TextModel(
    tfIdf: bool,            // a TfidfVectorizer (true) or a CountVectorizer (false)
    vocab: Vocab,           // vocabulary_
    stop: set<Term>,        // stop_words_
    df: seq<nat>,           // the document frequencies idf_ encodes, by id (TF-IDF only)
    n: nat,                 // N_, the number of documents seen
    basis: Option<Matrix>)  // components_ of the CPUTruncatedSVD step; None when that step is something else

  /** The encoder object between calls. */
  datatype Encoder = Encoder(
    model: TextModel,
    loaded: bool,                    // a persisted state was loaded at construction
    stored: Option<Matrix>,          // tf_idf[col], the accumulated matrix; None when the column has no entry
    target: Option<seq<Label>>)      // the target history read at load time

  /** What `joblib` persists. */
  datatype Blob =
    | Parts(model: TextModel, stored: Option<Matrix>, target: Option<seq<Label>>)  // the dict the updatable encoder writes
    | Legacy(model: TextModel)                                                     // a bare transformer, as the cached encoder writes

  /** One call's input: the text batch, reduced to what the model needs, and the library's fits on it. */
  datatype Batch = Batch(
    rows: nat,                 // X.shape[0]
    y: Option<seq<Label>>,     // the labels passed along, if any
    terms: seq<Term>,          // vocabulary_ of the vectorizer fitted on the batch, in iteration order
    dfs: seq<nat>,             // the batch document frequency of each of those terms
    matrix: Matrix,            // the batch as transformed by the column's vectorizer once this call has updated (or refitted) it
    svd: Matrix -> Matrix,     // the components_ a CPUTruncatedSVD with the column's parameters fits on a given matrix
    refit: TextModel)          // the transformer fitted on this batch alone (used when nothing was loaded)

  /** What the call returns. */
  datatype Output =
    | Encoded(rows: nat)                                    // the batch encoded by the transformer, one row per document
    | History(matrix: Matrix, target: Option<seq<Label>>)   // with `append`: the accumulated matrix to encode, and the labels

  datatype Outcome = Outcome(encoder: Encoder, saved: Option<Blob>, output: Output)

  /** An SVD fit yields a rectangular basis with one column per column of the fitted matrix. */
  ghost predicate KeepsShape(svd: Matrix -> Matrix) {
    forall m {:trigger svd(m)} | WellFormed(m) :: WellFormed(svd(m)) && svd(m).width == m.width
  }

  /**
   * The arrays involved are rectangular, and the batch frequencies are one per
   * batch term (they are read from the batch vectorizer's `idf_`, which has
   * one entry per vocabulary term).
   */
  ghost predicate Shaped(e: Encoder, x: Batch) {
    && |x.dfs| == |x.terms|
    && WellFormed(x.matrix) && KeepsShape(x.svd)
    && (e.model.basis.Some? ==> WellFormed(e.model.basis.value))
    && (e.stored.Some? ==> WellFormed(e.stored.value))
  }

  /**
   * Construction: with no load path the encoder starts from the unfitted
   * transformer; a dict blob restores transformer, accumulated matrix and
   * target; a legacy bare transformer comes with no accumulated matrix and no
   * target.
   */
  function Load(blob: Option<Blob>, unfitted: TextModel): (e: Encoder)
    ensures e.loaded <==> blob.Some?
    ensures blob.None? ==> e.model == unfitted && e.stored.None? && e.target.None?
    ensures blob.Some? ==> e.model == blob.value.model
    ensures blob.Some? && blob.value.Legacy? ==> e.stored.None? && e.target.None?
    ensures blob.Some? && blob.value.Parts? ==> Parts(e.model, e.stored, e.target) == blob.value
  {
    match blob
    case None => Encoder(unfitted, false, None, None)
    case Some(Parts(model, stored, target)) => Encoder(model, true, stored, target)
    case Some(Legacy(model)) => Encoder(model, true, None, None)
  }

  /** `np.hstack([target, y])` when a target history exists, else `y`. */
  function AppendTarget(history: Option<seq<Label>>, y: Option<seq<Label>>): (r: Option<seq<Label>>)
    ensures history.None? ==> r == y
    ensures history.Some? ==> r.Some? && |r.value| == |history.value| + (if y.Some? then |y.value| else 1)
    ensures history.Some? ==> r.value[..|history.value|] == history.value
    ensures history.Some? && y.Some? ==> r.value[|history.value|..] == y.value
    ensures history.Some? && y.None? ==> r.value[|history.value|..] == [NoneObject]
  {
    match history
    case None => y
    case Some(h) =>
      var tail := if y.Some? then y.value else [NoneObject];
      var r := h + tail;
      assert r[..|h|] == h && r[|h|..] == tail;
      Some(r)
  }

  /**
   * The vocabulary step: TF-IDF merges vocabulary, stop list, document
   * frequencies and `N_`; the count vectorizer merges vocabulary and stop list
   * only.
   */
  function UpdateVocabulary(m: TextModel, x: Batch): (r: Result<TextModel>)
    requires |x.dfs| == |x.terms|
    ensures r.Success? ==> r.value.tfIdf == m.tfIdf && r.value.basis == m.basis
    ensures r.Success? ==> r.value.n == if m.tfIdf then m.n + x.rows else m.n
    ensures r.Success? ==> forall t | t in m.vocab :: t in r.value.vocab && r.value.vocab[t] == m.vocab[t]
    ensures r.Success? ==> forall t | t in r.value.vocab :: t in m.vocab || t in x.terms
    ensures r.Success? ==> forall t | t in x.terms :: t in r.value.vocab
    ensures r.Success? ==> forall t :: t in r.value.stop <==> t in m.stop && t !in NewTerms(m.vocab, x.terms)
    ensures !m.tfIdf ==> r.Success?
  {
    var merged := MergeVocabulary(m.vocab, m.stop, x.terms);
    if m.tfIdf then
      var df :- MergeDf(m.vocab, m.df, x.terms, x.dfs);
      Success(m.(vocab := merged.0, stop := merged.1, df := df, n := m.n + x.rows))
    else
      Success(m.(vocab := merged.0, stop := merged.1))
  }

  /** The model, the accumulated matrix and, with `append`, the matrix to encode, after the basis step. */
  datatype Adapted = Adapted(model: TextModel, stored: Option<Matrix>, history: Option<Matrix>)

  /**
   * The basis step. It runs only when the SVD step is a CPUTruncatedSVD. A
   * stored matrix for the column selects the exact refit: the batch is
   * accumulated and the basis replaced by the SVD fitted on the whole
   * accumulated matrix. No stored matrix selects the blend: the batch matrix
   * becomes the stored matrix and the basis is blended with the SVD fitted on
   * the batch alone.
   */
  function AdaptBasis(m: TextModel, stored: Option<Matrix>, x: Batch, append: bool, step: real): (r: Result<Adapted>)
    requires WellFormed(x.matrix) && KeepsShape(x.svd)
    requires m.basis.Some? ==> WellFormed(m.basis.value)
    requires stored.Some? ==> WellFormed(stored.value)
    ensures r.Success? ==> r.value.model == m.(basis := r.value.model.basis)
    ensures m.basis.None? ==> r == Success(Adapted(m, stored, None))
    ensures r.Success? && m.basis.Some? && stored.Some? ==>
              && r.value.stored.Some?
              && Success(r.value.stored.value) == Accumulate(stored.value, x.matrix)
              && r.value.model.basis == Some(x.svd(r.value.stored.value))
              && (r.value.history.Some? <==> append)
              && (append ==> r.value.history == r.value.stored)
    ensures r.Success? && m.basis.Some? && stored.None? ==>
              && r.value.model.basis.Some?
              && Success(r.value.model.basis.value) == Blend(m.basis.value, x.svd(x.matrix), step)
              && r.value.stored == Some(x.matrix)
              && r.value.history.None?
  {
    match m.basis
    case None => Success(Adapted(m, stored, None))
    case Some(basis) =>
      match stored
      case Some(s) =>
        var acc :- Accumulate(s, x.matrix);
        Success(Adapted(m.(basis := Some(x.svd(acc))), Some(acc), if append then Some(acc) else None))
      case None =>
        var blended :- Blend(basis, x.svd(x.matrix), step);
        Success(Adapted(m.(basis := Some(blended)), Some(x.matrix), None))
  }

  /**
   * `Updatable_TextTransformer.fit_transform` for one column. `save` says
   * whether a save path is configured; the blob that would be written is
   * returned. Only the persisted blob receives the new target history: the
   * encoder's own `target` is left as it was loaded.
   */
  function FitTransform(e: Encoder, x: Batch, append: bool, step: real, save: bool): (r: Result<Outcome>)
    requires Shaped(e, x)
    ensures !e.loaded ==> r.Success? && r.value.encoder.model == x.refit.(n := x.rows)
                          && r.value.encoder.stored == Some(x.matrix) && !r.value.encoder.loaded
    ensures e.loaded && r.Success? ==> r.value.encoder.loaded && r.value.encoder.target == e.target
    ensures e.loaded && r.Success? ==>
              forall t | t in e.model.vocab :: t in r.value.encoder.model.vocab
                                                && r.value.encoder.model.vocab[t] == e.model.vocab[t]
    ensures e.loaded && r.Success? ==>
              r.value.encoder.model.n == if e.model.tfIdf then e.model.n + x.rows else e.model.n
    ensures r.Success? ==> (r.value.saved.Some? <==> save)
    ensures r.Success? && save ==>
              && r.value.saved.value.Parts?
              && r.value.saved.value.model == r.value.encoder.model
              && r.value.saved.value.stored == r.value.encoder.stored
              && r.value.saved.value.target == if r.value.output.History? then r.value.output.target else x.y
    ensures r.Success? ==> (r.value.output.History? <==> e.loaded && append)
    ensures r.Success? && r.value.output.History? ==> r.value.encoder.stored == Some(r.value.output.matrix)
  {
    if !e.loaded then
      var model := x.refit.(n := x.rows);
      var enc := e.(model := model, stored := Some(x.matrix));
      Success(Outcome(enc, if save then Some(Parts(model, Some(x.matrix), x.y)) else None, Encoded(x.rows)))
    else
      var m :- UpdateVocabulary(e.model, x);
      var a :- AdaptBasis(m, e.stored, x, append, step);
      var enc := e.(model := a.model, stored := a.stored);
      if append then
        if a.history.None? then
          Failure(NothingToConcatenate)
        else
          var y := AppendTarget(e.target, x.y);
          Success(Outcome(enc, if save then Some(Parts(a.model, a.stored, y)) else None, History(a.history.value, y)))
      else
        Success(Outcome(enc, if save then Some(Parts(a.model, a.stored, x.y)) else None, Encoded(x.rows)))
  }

  /** `Cached_TextTransformer.fit_transform`: always a fresh fit, persisted as a bare transformer. */
  function CachedFitTransform(x: Batch, save: bool): (r: (TextModel, Option<Blob>))
    ensures r.0 == x.refit.(n := x.rows)
    ensures save <==> r.1.Some?
    ensures save ==> r.1.value.Legacy? && r.1.value.model == r.0
  {
    var model := x.refit.(n := x.rows);
    (model, if save then Some(Legacy(model)) else None)
  }

  /**
   * What the encoder keeps true between calls: contiguous ids, one frequency
   * per id, a basis with one column per id, and an accumulated matrix no
   * wider than the vocabulary (without an SVD step it is never updated while
   * the vocabulary grows).
   */
  predicate Consistent(e: Encoder) {
    && Contiguous(e.model.vocab)
    && (e.model.tfIdf ==> |e.model.df| == |e.model.vocab|)
    && (e.model.basis.Some? ==> WellFormed(e.model.basis.value) && e.model.basis.value.width == |e.model.vocab|)
    && (e.stored.Some? ==> WellFormed(e.stored.value) && e.stored.value.width <= |e.model.vocab|)
  }

  /**
   * What the libraries deliver in an update call: a batch vocabulary without
   * repeats and one frequency per term; a transformed batch with one row per
   * document and one column per id of the merged vocabulary; an SVD fit that keeps shapes and, on the
   * blend path, finds as many components in the batch as the stored basis has.
   */
  ghost predicate Fits(e: Encoder, x: Batch) {
    && Distinct(x.terms) && |x.dfs| == |x.terms|
    && WellFormed(x.matrix) && Height(x.matrix) == x.rows
    && x.matrix.width == |e.model.vocab| + |NewTerms(e.model.vocab, x.terms)|
    && KeepsShape(x.svd)
    && (e.model.basis.Some? && e.stored.None? ==> Height(x.svd(x.matrix)) == Height(e.model.basis.value))
  }

  /** The vocabulary step on a consistent model: it succeeds, keeps ids contiguous and frequencies one per id, and sums them. */
  lemma VocabularyStep(m0: TextModel, x: Batch)
    requires Contiguous(m0.vocab) && (m0.tfIdf ==> |m0.df| == |m0.vocab|)
    requires Distinct(x.terms) && |x.dfs| == |x.terms|
    ensures UpdateVocabulary(m0, x).Success?
    ensures var m := UpdateVocabulary(m0, x).value;
            && m.vocab == Merge(m0.vocab, m0.stop, x.terms).vocab
            && Contiguous(m.vocab)
            && |m.vocab| == |m0.vocab| + |NewTerms(m0.vocab, x.terms)|
            && (m.tfIdf ==> |m.df| == |m.vocab|)
            && (m.tfIdf ==> forall t | t in m.vocab :: m.df[m.vocab[t]] == PriorDf(m0.vocab, m0.df, t) + BatchDf(x.terms, x.dfs, t))
  {
    MergeContiguous(m0.vocab, m0.stop, x.terms);
    if m0.tfIdf {
      MergeDfAdditive(m0.vocab, m0.stop, m0.df, x.terms, x.dfs);
    }
  }

  /** The basis step when every array is at most as wide as the batch arrays: it succeeds and leaves them all batch-wide. */
  lemma BasisStep(m: TextModel, stored: Option<Matrix>, x: Batch, append: bool, step: real)
    requires WellFormed(x.matrix) && KeepsShape(x.svd)
    requires m.basis.Some? ==> WellFormed(m.basis.value) && m.basis.value.width <= x.matrix.width
    requires m.basis.Some? && stored.None? ==> Height(x.svd(x.matrix)) == Height(m.basis.value)
    requires stored.Some? ==> WellFormed(stored.value) && stored.value.width <= x.matrix.width
    ensures AdaptBasis(m, stored, x, append, step).Success?
    ensures var a := AdaptBasis(m, stored, x, append, step).value;
            && (a.model.basis.Some? ==> WellFormed(a.model.basis.value) && a.model.basis.value.width == x.matrix.width)
            && (m.basis.Some? ==> a.stored.Some? && WellFormed(a.stored.value) && a.stored.value.width == x.matrix.width)
            && (m.basis.None? ==> a.stored == stored)
  {
  }

  /**
   * An update of a consistent encoder with library outputs that fit it
   * succeeds, unless `append` is asked for without an accumulated matrix to
   * return; it keeps the encoder consistent, grows the vocabulary by exactly
   * the new terms, keeps the accumulated matrix exactly as wide as the
   * vocabulary when there is an SVD step, and for TF-IDF gives every term the
   * sum of its old and its batch document frequency.
   */
  lemma UpdatePreservesConsistency(e: Encoder, x: Batch, append: bool, step: real, save: bool)
    requires e.loaded && Consistent(e) && Fits(e, x)
    requires append ==> e.model.basis.Some? && e.stored.Some?
    ensures Shaped(e, x) && FitTransform(e, x, append, step, save).Success?
    ensures var after := FitTransform(e, x, append, step, save).value.encoder;
            && Consistent(after)
            && |after.model.vocab| == |e.model.vocab| + |NewTerms(e.model.vocab, x.terms)|
            && (e.model.basis.Some? ==> after.stored.Some? && after.stored.value.width == |after.model.vocab|)
            && (e.model.tfIdf ==>
                  forall t | t in after.model.vocab ::
                    after.model.df[after.model.vocab[t]] == PriorDf(e.model.vocab, e.model.df, t) + BatchDf(x.terms, x.dfs, t))
  {
    VocabularyStep(e.model, x);
    var m := UpdateVocabulary(e.model, x).value;
    assert x.matrix.width == |m.vocab|;
    BasisStep(m, e.stored, x, append, step);
    UpdateComposes(e, x, append, step, save);
  }

  /** A loaded update whose two steps succeed, and which has a history when `append` asks for one, commits both steps. */
  lemma UpdateComposes(e: Encoder, x: Batch, append: bool, step: real, save: bool)
    requires Shaped(e, x) && e.loaded && UpdateVocabulary(e.model, x).Success?
    requires AdaptBasis(UpdateVocabulary(e.model, x).value, e.stored, x, append, step).Success?
    requires append ==> AdaptBasis(UpdateVocabulary(e.model, x).value, e.stored, x, append, step).value.history.Some?
    ensures var a := AdaptBasis(UpdateVocabulary(e.model, x).value, e.stored, x, append, step).value;
            && FitTransform(e, x, append, step, save).Success?
            && FitTransform(e, x, append, step, save).value.encoder == e.(model := a.model, stored := a.stored)
  {
  }

  /** Asking for `append` when the column has no accumulated matrix, or no SVD step, fails in the final concatenation. */
  lemma AppendNeedsHistory(e: Encoder, x: Batch, step: real, save: bool)
    requires e.loaded && Consistent(e) && Fits(e, x)
    requires e.model.basis.None? || e.stored.None?
    ensures Shaped(e, x) && FitTransform(e, x, true, step, save) == Failure(NothingToConcatenate)
  {
    VocabularyStep(e.model, x);
    var m := UpdateVocabulary(e.model, x).value;
    BasisStep(m, e.stored, x, true, step);
  }

  /**
   * After loading a bare transformer the first update blends the basis and
   * starts the accumulated matrix from the batch, so the encoder then holds
   * both a basis and an accumulated matrix: every later update refits.
   */
  lemma LegacyLoadBlends(model: TextModel, unfitted: TextModel, x: Batch, step: real, save: bool)
    requires model.basis.Some?
    requires Consistent(Load(Some(Legacy(model)), unfitted)) && Fits(Load(Some(Legacy(model)), unfitted), x)
    ensures var e := Load(Some(Legacy(model)), unfitted);
            && Shaped(e, x)
            && FitTransform(e, x, false, step, save).Success?
            && FitTransform(e, x, false, step, save).value.encoder.stored == Some(x.matrix)
            && FitTransform(e, x, false, step, save).value.encoder.model.basis.Some?
            && Success(FitTransform(e, x, false, step, save).value.encoder.model.basis.value)
               == Blend(model.basis.value, x.svd(x.matrix), step)
  {
    UpdatePreservesConsistency(Load(Some(Legacy(model)), unfitted), x, false, step, save);
  }

  /**
   * With a basis and an accumulated matrix, a successful update stacks the
   * batch below the stored rows and refits the basis on that whole history,
   * not on the batch alone.
   */
  lemma StoredMatrixSelectsRefit(e: Encoder, x: Batch, append: bool, step: real, save: bool)
    requires Shaped(e, x) && e.loaded && e.model.basis.Some? && e.stored.Some?
    ensures FitTransform(e, x, append, step, save).Success? ==>
            var after := FitTransform(e, x, append, step, save).value.encoder;
            && after.stored.Some?
            && Success(after.stored.value) == Accumulate(e.stored.value, x.matrix)
            && Height(after.stored.value) == Height(e.stored.value) + Height(x.matrix)
            && after.stored.value.rows[Height(e.stored.value)..] == x.matrix.rows
            && after.model.basis == Some(x.svd(after.stored.value))
  {
    var r := FitTransform(e, x, append, step, save);
    if r.Success? {
      var a := AdaptBasis(UpdateVocabulary(e.model, x).value, e.stored, x, append, step);
      assert r.value.encoder.stored == a.value.stored;
    }
  }

  /**
   * On the refit path of a TF-IDF column the document count `N_` and the
   * accumulated matrix grow together: both by the number of documents in the
   * batch.
   */
  lemma RefitCountsDocuments(e: Encoder, x: Batch, append: bool, step: real, save: bool)
    requires e.loaded && Consistent(e) && Fits(e, x)
    requires e.model.tfIdf && e.model.basis.Some? && e.stored.Some?
    ensures Shaped(e, x) && FitTransform(e, x, append, step, save).Success?
    ensures var after := FitTransform(e, x, append, step, save).value.encoder;
            && after.stored.Some?
            && after.model.n - e.model.n == Height(after.stored.value) - Height(e.stored.value) == x.rows
  {
    UpdatePreservesConsistency(e, x, append, step, save);
    StoredMatrixSelectsRefit(e, x, append, step, save);
  }

  /** With `append` the returned and persisted labels are the loaded history followed by this call's labels (or one `None`). */
  lemma AppendExtendsTarget(e: Encoder, x: Batch, step: real, history: seq<Label>)
    requires Shaped(e, x) && e.loaded && e.target == Some(history)
    ensures FitTransform(e, x, true, step, true).Success? ==>
            var r := FitTransform(e, x, true, step, true).value;
            && r.output.History? && r.output.target.Some?
            && r.output.target.value[..|history|] == history
            && r.output.target.value[|history|..] == (if x.y.Some? then x.y.value else [NoneObject])
            && r.saved == Some(Parts(r.encoder.model, r.encoder.stored, r.output.target))
            && r.encoder.target == Some(history)
  {
  }

  /**
   * An update without `append` persists only this call's labels: a loaded
   * target history is dropped from the blob, while the persisted accumulated
   * matrix keeps the rows it came with.
   */
  lemma PlainUpdateDropsHistory(e: Encoder, x: Batch, step: real, history: seq<Label>)
    requires Shaped(e, x) && e.loaded && e.target == Some(history)
    ensures FitTransform(e, x, false, step, true).Success? ==>
            var r := FitTransform(e, x, false, step, true).value;
            && r.output == Encoded(x.rows)
            && r.saved.Some? && r.saved.value.Parts?
            && r.saved.value.target == x.y
            && r.saved.value.stored == r.encoder.stored
  {
  }

  /**
   * The blob the cached transformer saves loads as a bare transformer with no
   * accumulated matrix and no target, so the first update of the updatable
   * encoder from it blends the basis and stores the batch matrix.
   */
  lemma CachedBlobBlends(x: Batch, unfitted: TextModel, x2: Batch, step: real, save: bool)
    requires x.refit.basis.Some?
    requires Consistent(Load(CachedFitTransform(x, true).1, unfitted))
    requires Fits(Load(CachedFitTransform(x, true).1, unfitted), x2)
    ensures var e := Load(CachedFitTransform(x, true).1, unfitted);
            && e.loaded && e.stored.None? && e.target.None? && e.model.n == x.rows
            && Shaped(e, x2)
            && FitTransform(e, x2, false, step, save).Success?
            && FitTransform(e, x2, false, step, save).value.encoder.stored == Some(x2.matrix)
            && FitTransform(e, x2, false, step, save).value.encoder.model.basis.Some?
            && Success(FitTransform(e, x2, false, step, save).value.encoder.model.basis.value)
               == Blend(x.refit.basis.value, x2.svd(x2.matrix), step)
  {
    var model := CachedFitTransform(x, true).0;
    LegacyLoadBlends(model, unfitted, x2, step, save);
  }
}

=== FILE: frequencies.dfy ===
/**
 * Document-frequency re-estimation of the TF-IDF branch of the update. The
 * fitted vectorizer stores idf weights; the model keeps the document
 * frequencies they encode (as naturals) and the document count `N_`, and
 * merges old and batch frequencies without seeing any old document again.
 */
module Frequencies {
  import opened Results
  import opened Vocabulary

  /** The batch document frequency of `t`: the value paired with `t` in the batch vocabulary, or 0 when the batch did not see `t`. */
  function BatchDf(terms: seq<Term>, dfs: seq<nat>, t: Term): nat
    requires |dfs| == |terms|
  {
    if |terms| == 0 then 0
    else if terms[|terms| - 1] == t then dfs[|terms| - 1]
    else BatchDf(terms[..|terms| - 1], dfs[..|terms| - 1], t)
  }

  /** The old document frequency of `t`: the value at its old id, or 0 for a term the old vocabulary lacked. */
  function PriorDf(v: Vocab, oldDf: seq<nat>, t: Term): nat {
    if t in v && v[t] < |oldDf| then oldDf[v[t]] else 0
  }

  /**
   * The two vectors the merge loop fills: `remapped_freq`, the batch
   * frequencies of known terms placed at their old ids, and `new_freq`, the
   * batch frequencies of new terms in the order they are added.
   */
  datatype Aligned = Aligned(remapped: seq<nat>, added: seq<nat>)

  /**
   * The frequency part of the merge loop. Whether a term is known is decided
   * by the dictionary as the loop finds it on that iteration; writing to a
   * position past the end of `remapped_freq` is numpy's IndexError.
   */
  function Realign(v: Vocab, width: nat, terms: seq<Term>, dfs: seq<nat>): (r: Result<Aligned>)
    requires |dfs| == |terms|
    ensures r.Success? ==> |r.value.remapped| == width
    ensures r.Success? ==> |r.value.added| == |NewTerms(v, terms)|
  {
    if |terms| == 0 then
      Success(Aligned(seq(width, _ => 0), []))
    else
      var n := |terms| - 1;
      var s :- Realign(v, width, terms[..n], dfs[..n]);
      var dict := Merge(v, {}, terms[..n]).vocab;
      var k := terms[n];
      InSplit(terms);
      if k !in dict then
        Success(Aligned(s.remapped, s.added + [dfs[n]]))
      else if dict[k] < |s.remapped| then
        Success(Aligned(s.remapped[dict[k] := dfs[n]], s.added))
      else
        Failure(IndexOutOfRange)
  }

  /**
   * The merged frequency vector: `freq + remapped_freq` followed by `new_freq`.
   * It has one entry per merged vocabulary id.
   */
  function MergeDf(v: Vocab, oldDf: seq<nat>, terms: seq<Term>, dfs: seq<nat>): (r: Result<seq<nat>>)
    requires |dfs| == |terms|
    ensures r.Success? ==> |r.value| == |oldDf| + |NewTerms(v, terms)|
  {
    var s :- Realign(v, |oldDf|, terms, dfs);
    Success(seq(|oldDf|, i requires 0 <= i < |oldDf| => oldDf[i] + s.remapped[i]) + s.added)
  }

  /** The batch value of a term is the one paired with its position in a batch vocabulary without repeats. */
  lemma {:induction false} BatchDfAt(terms: seq<Term>, dfs: seq<nat>, i: nat)
    requires |dfs| == |terms| && Distinct(terms) && i < |terms|
    ensures BatchDf(terms, dfs, terms[i]) == dfs[i]
  {
    var n := |terms| - 1;
    if i < n {
      assert terms[..n][i] == terms[i] && dfs[..n][i] == dfs[i];
      BatchDfAt(terms[..n], dfs[..n], i);
    }
  }

  /** A term the batch did not see contributes nothing. */
  lemma {:induction false} BatchDfAbsent(terms: seq<Term>, dfs: seq<nat>, t: Term)
    requires |dfs| == |terms| && t !in terms
    ensures BatchDf(terms, dfs, t) == 0
  {
    if |terms| > 0 {
      var n := |terms| - 1;
      assert t !in terms[..n];
      BatchDfAbsent(terms[..n], dfs[..n], t);
    }
  }

  /** What `RealignPlaces` promises, for the batch vocabulary `terms` and its frequencies `dfs`. */
  ghost predicate Placed(v: Vocab, terms: seq<Term>, dfs: seq<nat>, s: Aligned)
    requires |dfs| == |terms|
  {
    && |s.remapped| == |v|
    && |s.added| == |NewTerms(v, terms)|
    && (forall t | t in v && v[t] < |v| :: s.remapped[v[t]] == BatchDf(terms, dfs, t))
    && (forall j | 0 <= j < |NewTerms(v, terms)| :: s.added[j] == BatchDf(terms, dfs, NewTerms(v, terms)[j]))
  }

  /** One iteration of the loop for a term that the old vocabulary already knows. */
  lemma PlaceKnown(v: Vocab, terms: seq<Term>, dfs: seq<nat>, prefix: seq<Term>, dfsPrefix: seq<nat>, s: Aligned)
    requires |terms| > 0 && |dfs| == |terms|
    requires prefix == terms[..|terms| - 1] && dfsPrefix == dfs[..|terms| - 1]
    requires terms[|terms| - 1] in v && terms[|terms| - 1] !in prefix
    requires Contiguous(v)
    requires Realign(v, |v|, prefix, dfsPrefix) == Success(s)
    requires Placed(v, prefix, dfsPrefix, s)
    ensures Realign(v, |v|, terms, dfs).Success?
    ensures Placed(v, terms, dfs, Realign(v, |v|, terms, dfs).value)
  {
    var n := |terms| - 1;
    var k := terms[n];
    var dict := Merge(v, {}, prefix).vocab;
    assert k in dict && dict[k] == v[k];
    var r := Aligned(s.remapped[v[k] := dfs[n]], s.added);
    assert Realign(v, |v|, terms, dfs) == Success(r);
    var before := NewTerms(v, prefix);
    assert NewTerms(v, terms) == before;
    forall t | t in v && v[t] < |v|
      ensures r.remapped[v[t]] == BatchDf(terms, dfs, t)
    {
      if t != k {
        assert v[t] != v[k];
      }
    }
    forall j | 0 <= j < |before|
      ensures r.added[j] == BatchDf(terms, dfs, before[j])
    {
      assert before[j] !in v;
    }
  }

  /** One iteration of the loop for a term new to the vocabulary. */
  lemma PlaceNew(v: Vocab, terms: seq<Term>, dfs: seq<nat>, prefix: seq<Term>, dfsPrefix: seq<nat>, s: Aligned)
    requires |terms| > 0 && |dfs| == |terms|
    requires prefix == terms[..|terms| - 1] && dfsPrefix == dfs[..|terms| - 1]
    requires terms[|terms| - 1] !in v && terms[|terms| - 1] !in prefix
    requires Realign(v, |v|, prefix, dfsPrefix) == Success(s)
    requires Placed(v, prefix, dfsPrefix, s)
    ensures Realign(v, |v|, terms, dfs).Success?
    ensures Placed(v, terms, dfs, Realign(v, |v|, terms, dfs).value)
  {
    var n := |terms| - 1;
    var k := terms[n];
    assert k !in Merge(v, {}, prefix).vocab;
    var r := Aligned(s.remapped, s.added + [dfs[n]]);
    assert Realign(v, |v|, terms, dfs) == Success(r);
    var before := NewTerms(v, prefix);
    assert k !in before;
    var after := before + [k];
    assert NewTerms(v, terms) == after;
    forall t | t in v && v[t] < |v|
      ensures r.remapped[v[t]] == BatchDf(terms, dfs, t)
    {
    }
    forall j | 0 <= j < |after|
      ensures r.added[j] == BatchDf(terms, dfs, after[j])
    {
      if j < |before| {
        assert before[j] in prefix;
        assert after[j] == before[j];
      }
    }
  }

  /**
   * For a contiguous old vocabulary and a batch vocabulary without repeats the
   * loop never indexes out of range; it puts each known term's batch value at
   * the term's old id (0 where the batch lacks the term) and lists the new
   * terms' batch values in the order the terms are added.
   */
  lemma {:induction false} RealignPlaces(v: Vocab, terms: seq<Term>, dfs: seq<nat>)
    requires Contiguous(v) && Distinct(terms) && |dfs| == |terms|
    ensures Realign(v, |v|, terms, dfs).Success?
    ensures forall t | t in v :: Realign(v, |v|, terms, dfs).value.remapped[v[t]] == BatchDf(terms, dfs, t)
    ensures forall j | 0 <= j < |NewTerms(v, terms)| ::
              Realign(v, |v|, terms, dfs).value.added[j] == BatchDf(terms, dfs, NewTerms(v, terms)[j])
  {
    RealignPlacedAll(v, terms, dfs);
  }

  lemma {:induction false} RealignPlacedAll(v: Vocab, terms: seq<Term>, dfs: seq<nat>)
    requires Contiguous(v) && Distinct(terms) && |dfs| == |terms|
    ensures Realign(v, |v|, terms, dfs).Success?
    ensures Placed(v, terms, dfs, Realign(v, |v|, terms, dfs).value)
  {
    if |terms| == 0 {
      return;
    }
    var n := |terms| - 1;
    var prefix := terms[..n];
    var dfsPrefix := dfs[..n];
    var k := terms[n];
    assert Distinct(prefix);
    assert k !in prefix by {
      InSplit(terms);
      forall i | 0 <= i < n ensures prefix[i] != k { }
    }
    RealignPlacedAll(v, prefix, dfsPrefix);
    var s := Realign(v, |v|, prefix, dfsPrefix).value;
    if k in v {
      PlaceKnown(v, terms, dfs, prefix, dfsPrefix, s);
    } else {
      PlaceNew(v, terms, dfs, prefix, dfsPrefix, s);
    }
  }

  /** The merged vector is the old one plus `remapped_freq`, followed by `new_freq`. */
  lemma MergeDfLayout(v: Vocab, oldDf: seq<nat>, terms: seq<Term>, dfs: seq<nat>)
    requires |dfs| == |terms| && Realign(v, |oldDf|, terms, dfs).Success?
    ensures MergeDf(v, oldDf, terms, dfs).Success?
    ensures var s := Realign(v, |oldDf|, terms, dfs).value;
            && (forall i | 0 <= i < |oldDf| :: MergeDf(v, oldDf, terms, dfs).value[i] == oldDf[i] + s.remapped[i])
            && (forall j | 0 <= j < |s.added| :: MergeDf(v, oldDf, terms, dfs).value[|oldDf| + j] == s.added[j])
  {
    var s := Realign(v, |oldDf|, terms, dfs).value;
    var sum := seq(|oldDf|, i requires 0 <= i < |oldDf| => oldDf[i] + s.remapped[i]);
    assert MergeDf(v, oldDf, terms, dfs).value == sum + s.added;
  }

  /** At an old id the merged vector holds the old frequency plus the batch one. */
  lemma MergeDfAtOldId(v: Vocab, oldDf: seq<nat>, terms: seq<Term>, dfs: seq<nat>, t: Term)
    requires Contiguous(v) && |oldDf| == |v|
    requires Distinct(terms) && |dfs| == |terms|
    requires t in v
    ensures MergeDf(v, oldDf, terms, dfs).Success?
    ensures v[t] < |oldDf|
    ensures MergeDf(v, oldDf, terms, dfs).value[v[t]] == oldDf[v[t]] + BatchDf(terms, dfs, t)
  {
    RealignPlaces(v, terms, dfs);
    MergeDfLayout(v, oldDf, terms, dfs);
  }

  /** Past the old ids the merged vector holds the batch frequencies of the new terms, in the order they are added. */
  lemma MergeDfAtNewId(v: Vocab, oldDf: seq<nat>, terms: seq<Term>, dfs: seq<nat>, j: nat)
    requires Contiguous(v) && |oldDf| == |v|
    requires Distinct(terms) && |dfs| == |terms|
    requires j < |NewTerms(v, terms)|
    ensures MergeDf(v, oldDf, terms, dfs).Success?
    ensures MergeDf(v, oldDf, terms, dfs).value[|v| + j] == BatchDf(terms, dfs, NewTerms(v, terms)[j])
  {
    RealignPlaces(v, terms, dfs);
    MergeDfLayout(v, oldDf, terms, dfs);
  }

  /** The additivity of `MergeDfAdditive` for one term of the merged vocabulary. */
  lemma MergeDfAt(v: Vocab, stop: set<Term>, oldDf: seq<nat>, terms: seq<Term>, dfs: seq<nat>, t: Term)
    requires Contiguous(v) && |oldDf| == |v|
    requires Distinct(terms) && |dfs| == |terms|
    requires t in Merge(v, stop, terms).vocab
    ensures MergeDf(v, oldDf, terms, dfs).Success?
    ensures Merge(v, stop, terms).vocab[t] < |MergeDf(v, oldDf, terms, dfs).value|
    ensures MergeDf(v, oldDf, terms, dfs).value[Merge(v, stop, terms).vocab[t]] == PriorDf(v, oldDf, t) + BatchDf(terms, dfs, t)
  {
    if t in v {
      MergeDfAtKnown(v, stop, oldDf, terms, dfs, t);
    } else {
      MergeDfAtAdded(v, stop, oldDf, terms, dfs, t);
    }
  }

  /** `MergeDfAt` for a term the old vocabulary knows. */
  lemma MergeDfAtKnown(v: Vocab, stop: set<Term>, oldDf: seq<nat>, terms: seq<Term>, dfs: seq<nat>, t: Term)
    requires t in v
    requires Contiguous(v) && |oldDf| == |v|
    requires Distinct(terms) && |dfs| == |terms|
    requires t in Merge(v, stop, terms).vocab
    ensures MergeDf(v, oldDf, terms, dfs).Success?
    ensures Merge(v, stop, terms).vocab[t] < |MergeDf(v, oldDf, terms, dfs).value|
    ensures MergeDf(v, oldDf, terms, dfs).value[Merge(v, stop, terms).vocab[t]] == PriorDf(v, oldDf, t) + BatchDf(terms, dfs, t)
  {
    MergeDfAtOldId(v, oldDf, terms, dfs, t);
    var m := Merge(v, stop, terms).vocab;
    var r := MergeDf(v, oldDf, terms, dfs).value;
    assert m[t] == v[t];
    assert PriorDf(v, oldDf, t) == oldDf[v[t]];
    assert r[m[t]] == oldDf[v[t]] + BatchDf(terms, dfs, t);
  }

  /** `MergeDfAt` for a term the merge adds. */
  lemma MergeDfAtAdded(v: Vocab, stop: set<Term>, oldDf: seq<nat>, terms: seq<Term>, dfs: seq<nat>, t: Term)
    requires t !in v
    requires Contiguous(v) && |oldDf| == |v|
    requires Distinct(terms) && |dfs| == |terms|
    requires t in Merge(v, stop, terms).vocab
    ensures MergeDf(v, oldDf, terms, dfs).Success?
    ensures Merge(v, stop, terms).vocab[t] < |MergeDf(v, oldDf, terms, dfs).value|
    ensures MergeDf(v, oldDf, terms, dfs).value[Merge(v, stop, terms).vocab[t]] == PriorDf(v, oldDf, t) + BatchDf(terms, dfs, t)
  {
    AddedTermId(v, stop, terms, t);
    var m := Merge(v, stop, terms).vocab;
    var j :| 0 <= j < |NewTerms(v, terms)| && NewTerms(v, terms)[j] == t && m[t] == |v| + j;
    MergeDfAtNewId(v, oldDf, terms, dfs, j);
    var r := MergeDf(v, oldDf, terms, dfs).value;
    assert PriorDf(v, oldDf, t) == 0;
    assert r[m[t]] == BatchDf(terms, dfs, t);
  }

  /**
   * Document frequencies are additive per term: after the merge, every term of
   * the merged vocabulary has, at its merged id, its old frequency plus its
   * batch frequency, and the vector stays aligned with the vocabulary.
   */
  lemma MergeDfAdditive(v: Vocab, stop: set<Term>, oldDf: seq<nat>, terms: seq<Term>, dfs: seq<nat>)
    requires Contiguous(v) && |oldDf| == |v|
    requires Distinct(terms) && |dfs| == |terms|
    ensures MergeDf(v, oldDf, terms, dfs).Success?
    ensures |MergeDf(v, oldDf, terms, dfs).value| == |Merge(v, stop, terms).vocab|
    ensures var m := Merge(v, stop, terms).vocab;
            forall t | t in m :: MergeDf(v, oldDf, terms, dfs).value[m[t]] == PriorDf(v, oldDf, t) + BatchDf(terms, dfs, t)
  {
    RealignPlaces(v, terms, dfs);
    var m := Merge(v, stop, terms).vocab;
    forall t | t in m
      ensures MergeDf(v, oldDf, terms, dfs).value[m[t]] == PriorDf(v, oldDf, t) + BatchDf(terms, dfs, t)
    {
      MergeDfAt(v, stop, oldDf, terms, dfs, t);
    }
  }
}

=== FILE: matrices.dfy ===
/**
 * Dense models of the sparse term-document matrices the encoder keeps, and the
 * update of the accumulated matrix: pad the stored rows with zero columns up to
 * the width of the new batch, then stack the batch rows below them.
 */
module Matrices {
  import opened Results

  /** A matrix as a width and a sequence of rows; a zero-row matrix still has a width. */
  datatype Matrix = Matrix(width: nat, rows: seq<seq<real>>)

  /** Every row has exactly `width` entries, as in any numpy or scipy matrix. */
  predicate WellFormed(m: Matrix) {
    forall i | 0 <= i < |m.rows| :: |m.rows[i]| == m.width
  }

  function Height(m: Matrix): nat {
    |m.rows|
  }

  /** `scipy.sparse.hstack` of a matrix with a block of zero columns, up to width `w`. */
  function PadRight(m: Matrix, w: nat): (p: Matrix)
    requires WellFormed(m) && m.width <= w
    ensures WellFormed(p) && p.width == w && Height(p) == Height(m)
    ensures forall i, j | 0 <= i < Height(m) && 0 <= j < m.width :: p.rows[i][j] == m.rows[i][j]
    ensures forall i, j | 0 <= i < Height(m) && m.width <= j < w :: p.rows[i][j] == 0.0
  {
    Matrix(w, seq(|m.rows|, i requires 0 <= i < |m.rows| =>
                seq(w, j requires 0 <= j < w => if j < m.width then m.rows[i][j] else 0.0)))
  }

  /** The first `w` columns of every row. */
  function Crop(m: Matrix, w: nat): (c: Matrix)
    requires WellFormed(m) && w <= m.width
    ensures WellFormed(c) && c.width == w && Height(c) == Height(m)
    ensures forall i, j | 0 <= i < Height(m) && 0 <= j < w :: c.rows[i][j] == m.rows[i][j]
  {
    Matrix(w, seq(|m.rows|, i requires 0 <= i < |m.rows| => m.rows[i][..w]))
  }

  /** The first `h` rows. */
  function Top(m: Matrix, h: nat): (t: Matrix)
    requires h <= Height(m)
    ensures t.width == m.width && Height(t) == h
  {
    Matrix(m.width, m.rows[..h])
  }

  /**
   * The accumulated-matrix update: the stored matrix is padded with zero
   * columns when the batch is wider, then the batch rows are stacked below.
   * A batch narrower than the stored matrix makes the final `vstack` fail.
   */
  function Accumulate(stored: Matrix, batch: Matrix): (r: Result<Matrix>)
    requires WellFormed(stored) && WellFormed(batch)
    ensures r.Success? <==> stored.width <= batch.width
    ensures r.Failure? ==> r.error == ShapeMismatch
    ensures r.Success? ==> WellFormed(r.value) && r.value.width == batch.width
    ensures r.Success? ==> Height(r.value) == Height(stored) + Height(batch)
    ensures r.Success? ==>
              forall i, j | 0 <= i < Height(stored) && 0 <= j < stored.width :: r.value.rows[i][j] == stored.rows[i][j]
    ensures r.Success? ==>
              forall i, j | 0 <= i < Height(stored) && stored.width <= j < batch.width :: r.value.rows[i][j] == 0.0
    ensures r.Success? ==> r.value.rows[Height(stored)..] == batch.rows
  {
    var padded := if batch.width > stored.width then PadRight(stored, batch.width) else stored;
    if padded.width != batch.width then
      Failure(ShapeMismatch)
    else
      var r := Matrix(batch.width, padded.rows + batch.rows);
      assert r.rows[Height(stored)..] == batch.rows;
      Success(r)
  }

  /**
   * The update can be undone: the top rows cropped to the old width give back
   * the stored matrix, and the bottom rows are the batch.
   */
  lemma AccumulateSplits(stored: Matrix, batch: Matrix)
    requires WellFormed(stored) && WellFormed(batch) && stored.width <= batch.width
    ensures var r := Accumulate(stored, batch).value;
            && Crop(Top(r, Height(stored)), stored.width) == stored
            && Matrix(r.width, r.rows[Height(stored)..]) == batch
  {
    var r := Accumulate(stored, batch).value;
    var c := Crop(Top(r, Height(stored)), stored.width);
    forall i | 0 <= i < Height(stored)
      ensures c.rows[i] == stored.rows[i]
    {
      assert c.rows[i] == r.rows[i][..stored.width];
    }
    assert c.rows == stored.rows;
  }

  /**
   * Two updates in a row give the same matrix as one update with the two
   * batches stacked (the first padded to the second's width): the history
   * keeps every row, in arrival order.
   */
  lemma AccumulateTwice(stored: Matrix, b1: Matrix, b2: Matrix)
    requires WellFormed(stored) && WellFormed(b1) && WellFormed(b2)
    requires stored.width <= b1.width <= b2.width
    ensures Accumulate(stored, b1).Success?
    ensures Accumulate(Accumulate(stored, b1).value, b2)
            == Accumulate(stored, Matrix(b2.width, PadRight(b1, b2.width).rows + b2.rows))
  {
    var once := Accumulate(stored, b1).value;
    var both := Matrix(b2.width, PadRight(b1, b2.width).rows + b2.rows);
    assert WellFormed(both);
    var left := Accumulate(once, b2).value;
    var right := Accumulate(stored, both).value;
    forall i | 0 <= i < |left.rows|
      ensures left.rows[i] == right.rows[i]
    {
      if i < Height(stored) + Height(b1) {
        forall j | 0 <= j < b2.width
          ensures left.rows[i][j] == right.rows[i][j]
        {
          if i >= Height(stored) {
            assert once.rows[i] == once.rows[Height(stored)..][i - Height(stored)];
            assert right.rows[i] == right.rows[Height(stored)..][i - Height(stored)];
          }
        }
      } else {
        assert left.rows[i] == left.rows[Height(once)..][i - Height(once)];
        assert right.rows[i] == right.rows[Height(stored)..][i - Height(stored)];
      }
    }
    assert left.rows == right.rows;
  }
}

=== FILE: projection.dfy ===
/**
 * Adaptation of the SVD projection basis (`components_`, k rows by one column
 * per vocabulary id). On the incremental path the stored basis is moved by a
 * fixed step towards the basis fitted on the new batch alone, and the batch
 * basis supplies the columns of terms the stored basis has never seen.
 */
module Projection {
  import opened Results
  import opened Matrices

  /** One shared entry after the update `prior - step * (prior - batch)`. */
  function Nudge(prior: real, batch: real, step: real): real {
    prior - step * (prior - batch)
  }

  /**
   * The incremental blend. The stored basis and the batch basis must have the
   * same number of components and the batch basis at least the stored width;
   * otherwise numpy's subtraction or `hstack` refuses the shapes.
   */
  function Blend(prior: Matrix, batch: Matrix, step: real): (r: Result<Matrix>)
    requires WellFormed(prior) && WellFormed(batch)
    ensures r.Success? <==> Height(prior) == Height(batch) && prior.width <= batch.width
    ensures r.Failure? ==> r.error == ShapeMismatch
    ensures r.Success? ==> WellFormed(r.value) && r.value.width == batch.width && Height(r.value) == Height(batch)
    ensures r.Success? ==>
              forall i, j | 0 <= i < Height(batch) && prior.width <= j < batch.width :: r.value.rows[i][j] == batch.rows[i][j]
  {
    if Height(prior) != Height(batch) || batch.width < prior.width then
      Failure(ShapeMismatch)
    else
      Success(Matrix(batch.width, seq(Height(prior), i requires 0 <= i < Height(prior) =>
        seq(batch.width, j requires 0 <= j < batch.width =>
          if j < prior.width then Nudge(prior.rows[i][j], batch.rows[i][j], step) else batch.rows[i][j]))))
  }

  /** With step 0 the shared columns keep the stored basis: the result is the stored basis extended by the batch's extra columns. */
  lemma BlendStepZero(prior: Matrix, batch: Matrix)
    requires WellFormed(prior) && WellFormed(batch)
    requires Height(prior) == Height(batch) && prior.width <= batch.width
    ensures Crop(Blend(prior, batch, 0.0).value, prior.width) == prior
    ensures forall i, j | 0 <= i < Height(prior) && 0 <= j < prior.width ::
              Blend(prior, batch, 0.0).value.rows[i][j] == prior.rows[i][j]
  {
    var r := Blend(prior, batch, 0.0).value;
    var c := Crop(r, prior.width);
    forall i | 0 <= i < Height(prior)
      ensures c.rows[i] == prior.rows[i]
    {
    }
    assert c.rows == prior.rows;
  }

  /** With step 1 the blend is the batch basis itself. */
  lemma BlendStepOne(prior: Matrix, batch: Matrix)
    requires WellFormed(prior) && WellFormed(batch)
    requires Height(prior) == Height(batch) && prior.width <= batch.width
    ensures Blend(prior, batch, 1.0) == Success(batch)
  {
    var r := Blend(prior, batch, 1.0).value;
    forall i | 0 <= i < Height(batch)
      ensures r.rows[i] == batch.rows[i]
    {
    }
    assert r.rows == batch.rows;
  }

  lemma ProductNonNegative(x: real, y: real)
    requires x >= 0.0 && y >= 0.0
    ensures x * y >= 0.0
  {
  }

  /**
   * For a step in [0, 1] every shared entry lies between its stored and its
   * batch value, and its distance to the batch value shrinks by the factor
   * `1 - step`: one batch moves the basis only part of the way.
   */
  lemma BlendBounded(prior: Matrix, batch: Matrix, step: real, i: nat, j: nat)
    requires WellFormed(prior) && WellFormed(batch)
    requires Height(prior) == Height(batch) && prior.width <= batch.width
    requires 0.0 <= step <= 1.0
    requires i < Height(prior) && j < prior.width
    ensures var o, b, n := prior.rows[i][j], batch.rows[i][j], Blend(prior, batch, step).value.rows[i][j];
            && (o <= b ==> o <= n <= b)
            && (b <= o ==> b <= n <= o)
            && n - b == (1.0 - step) * (o - b)
  {
    var o, b := prior.rows[i][j], batch.rows[i][j];
    var n := Blend(prior, batch, step).value.rows[i][j];
    assert n == o - step * (o - b);
    assert n - b == (1.0 - step) * (o - b);
    if o <= b {
      ProductNonNegative(step, b - o);
      ProductNonNegative(1.0 - step, b - o);
    } else {
      ProductNonNegative(step, o - b);
      ProductNonNegative(1.0 - step, o - b);
    }
  }
}

=== FILE: results.dfy ===
/** Option and Result types for the error paths of the text encoder. */
module Results {

  datatype Option<+T> = None | Some(value: T)

  /** The ways a call can fail in the modelled code. */
  datatype Error =
    | ShapeMismatch         // numpy/scipy refuse to stack or subtract arrays of incompatible shape
    | IndexOutOfRange       // a numpy index past the end of a vector
    | NothingToConcatenate  // pandas.concat of an empty list

  datatype Result<+T> = Success(value: T) | Failure(error: Error) {

    predicate IsFailure() {
      Failure?
    }

    function PropagateFailure<U>(): Result<U>
      requires Failure?
    {
      Failure(error)
    }

    function Extract(): T
      requires Success?
    {
      value
    }
  }
}

=== FILE: vocabulary.dfy ===
/**
 * The vocabulary and stop-list merge of `Updatable_TextTransformer.fit_transform`:
 * the terms a vectorizer learned from a new batch are folded into the vocabulary
 * of the previously fitted vectorizer, one term at a time, in the iteration
 * order of the batch vocabulary.
 */
module Vocabulary {

  type Term = string

  /** A fitted vectorizer's `vocabulary_`: the column id of every known term. */
  type Vocab = map<Term, nat>

  predicate Distinct(s: seq<Term>) {
    forall i, j | 0 <= i < j < |s| :: s[i] != s[j]
  }

  predicate HasId(v: Vocab, i: nat) {
    exists t | t in v :: v[t] == i
  }

  /** The ids of `v` are exactly 0 .. |v|-1, each used by exactly one term. */
  predicate Contiguous(v: Vocab) {
    && (forall t | t in v :: v[t] < |v|)
    && (forall s, t | s in v && t in v && s != t :: v[s] != v[t])
    && (forall i: nat | i < |v| :: HasId(v, i))
  }

  /**
   * The terms of `terms` that `v` does not know yet, each once, in the order
   * they are first met: the terms the merge loop adds.
   */
  function NewTerms(v: Vocab, terms: seq<Term>): (added: seq<Term>)
    ensures forall t :: t in added <==> t in terms && t !in v
    ensures |added| <= |terms|
  {
    if |terms| == 0 then []
    else
      var earlier := NewTerms(v, terms[..|terms| - 1]);
      var k := terms[|terms| - 1];
      InSplit(terms);
      if k in v || k in earlier then earlier else earlier + [k]
  }

  /** The state of the merge loop: the growing dictionary, the stop list and the counter `max_val`. */
  datatype Merged = Merged(vocab: Vocab, stop: set<Term>, next: nat)

  /** One iteration of the merge loop: an unknown term takes the next id and leaves the stop list. */
  function Visit(m: Merged, k: Term): Merged {
    if k in m.vocab then m
    else Merged(m.vocab[k := m.next], m.stop - {k}, m.next + 1)
  }

  /** Membership in a non-empty sequence splits into its prefix and its last element. */
  lemma InSplit(s: seq<Term>)
    requires |s| > 0
    ensures forall t :: t in s <==> t in s[..|s| - 1] || t == s[|s| - 1]
  {
    assert s == s[..|s| - 1] + [s[|s| - 1]];
  }

  /** One visit keeps the facts `Merge` promises, for the batch extended by the visited term. */
  lemma VisitKeeps(v: Vocab, stop: set<Term>, ext: seq<Term>, prefix: seq<Term>, m: Merged)
    requires |ext| > 0 && prefix == ext[..|ext| - 1]
    requires m.next == |v| + |NewTerms(v, prefix)|
    requires |m.vocab| == m.next
    requires forall t :: t in m.vocab <==> t in v || t in prefix
    requires forall t | t in v :: m.vocab[t] == v[t]
    requires forall j | 0 <= j < |NewTerms(v, prefix)| :: m.vocab[NewTerms(v, prefix)[j]] == |v| + j
    requires forall t :: t in m.stop <==> t in stop && t !in NewTerms(v, prefix)
    ensures Visit(m, ext[|ext| - 1]).next == |v| + |NewTerms(v, ext)|
    ensures |Visit(m, ext[|ext| - 1]).vocab| == Visit(m, ext[|ext| - 1]).next
    ensures forall t :: t in Visit(m, ext[|ext| - 1]).vocab <==> t in v || t in ext
    ensures forall t | t in v :: Visit(m, ext[|ext| - 1]).vocab[t] == v[t]
    ensures forall j | 0 <= j < |NewTerms(v, ext)| :: Visit(m, ext[|ext| - 1]).vocab[NewTerms(v, ext)[j]] == |v| + j
    ensures forall t :: t in Visit(m, ext[|ext| - 1]).stop <==> t in stop && t !in NewTerms(v, ext)
  {
    if ext[|ext| - 1] in m.vocab {
      VisitKeepsKnown(v, stop, ext, prefix, m);
    } else {
      VisitKeepsNew(v, stop, ext, prefix, m);
    }
  }

  /** `VisitKeeps` for a term the vocabulary already holds. */
  lemma VisitKeepsKnown(v: Vocab, stop: set<Term>, ext: seq<Term>, prefix: seq<Term>, m: Merged)
    requires |ext| > 0 && ext[|ext| - 1] in m.vocab
    requires |ext| > 0 && prefix == ext[..|ext| - 1]
    requires m.next == |v| + |NewTerms(v, prefix)|
    requires |m.vocab| == m.next
    requires forall t :: t in m.vocab <==> t in v || t in prefix
    requires forall t | t in v :: m.vocab[t] == v[t]
    requires forall j | 0 <= j < |NewTerms(v, prefix)| :: m.vocab[NewTerms(v, prefix)[j]] == |v| + j
    requires forall t :: t in m.stop <==> t in stop && t !in NewTerms(v, prefix)
    ensures Visit(m, ext[|ext| - 1]).next == |v| + |NewTerms(v, ext)|
    ensures |Visit(m, ext[|ext| - 1]).vocab| == Visit(m, ext[|ext| - 1]).next
    ensures forall t :: t in Visit(m, ext[|ext| - 1]).vocab <==> t in v || t in ext
    ensures forall t | t in v :: Visit(m, ext[|ext| - 1]).vocab[t] == v[t]
    ensures forall j | 0 <= j < |NewTerms(v, ext)| :: Visit(m, ext[|ext| - 1]).vocab[NewTerms(v, ext)[j]] == |v| + j
    ensures forall t :: t in Visit(m, ext[|ext| - 1]).stop <==> t in stop && t !in NewTerms(v, ext)
  {
    InSplit(ext);
    var k := ext[|ext| - 1];
    var added := NewTerms(v, prefix);
    assert k in v || k in added;
    assert NewTerms(v, ext) == added;
  }

  /** `VisitKeeps` for a term the vocabulary lacks: it takes the next id. */
  lemma VisitKeepsNew(v: Vocab, stop: set<Term>, ext: seq<Term>, prefix: seq<Term>, m: Merged)
    requires |ext| > 0 && ext[|ext| - 1] !in m.vocab
    requires |ext| > 0 && prefix == ext[..|ext| - 1]
    requires m.next == |v| + |NewTerms(v, prefix)|
    requires |m.vocab| == m.next
    requires forall t :: t in m.vocab <==> t in v || t in prefix
    requires forall t | t in v :: m.vocab[t] == v[t]
    requires forall j | 0 <= j < |NewTerms(v, prefix)| :: m.vocab[NewTerms(v, prefix)[j]] == |v| + j
    requires forall t :: t in m.stop <==> t in stop && t !in NewTerms(v, prefix)
    ensures Visit(m, ext[|ext| - 1]).next == |v| + |NewTerms(v, ext)|
    ensures |Visit(m, ext[|ext| - 1]).vocab| == Visit(m, ext[|ext| - 1]).next
    ensures forall t :: t in Visit(m, ext[|ext| - 1]).vocab <==> t in v || t in ext
    ensures forall t | t in v :: Visit(m, ext[|ext| - 1]).vocab[t] == v[t]
    ensures forall j | 0 <= j < |NewTerms(v, ext)| :: Visit(m, ext[|ext| - 1]).vocab[NewTerms(v, ext)[j]] == |v| + j
    ensures forall t :: t in Visit(m, ext[|ext| - 1]).stop <==> t in stop && t !in NewTerms(v, ext)
  {
    InSplit(ext);
    var k := ext[|ext| - 1];
    var added := NewTerms(v, prefix);
    assert k !in v && k !in added;
    var addedExt := added + [k];
    assert NewTerms(v, ext) == addedExt;
    forall j | 0 <= j < |addedExt|
      ensures Visit(m, k).vocab[addedExt[j]] == |v| + j
    {
      if j < |added| {
        assert addedExt[j] == added[j];
      }
    }
  }

  /**
   * The merge loop run over the batch terms, starting from the old vocabulary,
   * the old stop list and `max_val = len(vocabulary)`: known terms keep their
   * ids, the j-th new term gets id |v| + j and leaves the stop list.
   */
  function Merge(v: Vocab, stop: set<Term>, terms: seq<Term>): (m: Merged)
    ensures m.next == |v| + |NewTerms(v, terms)|
    ensures |m.vocab| == m.next
    ensures forall t :: t in m.vocab <==> t in v || t in terms
    ensures forall t | t in v :: m.vocab[t] == v[t]
    ensures forall j | 0 <= j < |NewTerms(v, terms)| :: m.vocab[NewTerms(v, terms)[j]] == |v| + j
    ensures forall t :: t in m.stop <==> t in stop && t !in NewTerms(v, terms)
  {
    if |terms| == 0 then
      Merged(v, stop, |v|)
    else
      var before := Merge(v, stop, terms[..|terms| - 1]);
      VisitKeeps(v, stop, terms, terms[..|terms| - 1], before);
      Visit(before, terms[|terms| - 1])
  }

  /**
   * The count-vectorizer branch of the update: the merged vocabulary and stop
   * list. Known terms keep their ids and their stop-list status; terms new to
   * the vocabulary are added after the old ids and dropped from the stop list.
   */
  function MergeVocabulary(v: Vocab, stop: set<Term>, terms: seq<Term>): (r: (Vocab, set<Term>))
    ensures forall t :: t in r.0 <==> t in v || t in terms
    ensures forall t | t in v :: r.0[t] == v[t]
    ensures forall t | t in terms && t !in v :: r.0[t] >= |v| && t !in r.1
    ensures forall t | t in stop && (t in v || t !in terms) :: t in r.1
    ensures forall t | t in v :: (t in r.1 <==> t in stop)
    ensures r.1 <= stop
  {
    var m := Merge(v, stop, terms);
    (m.vocab, m.stop)
  }

  /** Every term the merge adds is one of the new terms, at the id its position gives it. */
  lemma AddedTermId(v: Vocab, stop: set<Term>, terms: seq<Term>, t: Term)
    requires t in Merge(v, stop, terms).vocab && t !in v
    ensures exists j :: 0 <= j < |NewTerms(v, terms)| && NewTerms(v, terms)[j] == t
                        && Merge(v, stop, terms).vocab[t] == |v| + j
  {
    var added := NewTerms(v, terms);
    assert t in added;
    var j :| 0 <= j < |added| && added[j] == t;
  }

  lemma MergeInjective(v: Vocab, stop: set<Term>, terms: seq<Term>)
    requires Contiguous(v)
    ensures var m := Merge(v, stop, terms).vocab;
            forall s, t | s in m && t in m && s != t :: m[s] != m[t]
  {
    var m := Merge(v, stop, terms).vocab;
    forall s, t | s in m && t in m && s != t
      ensures m[s] != m[t]
    {
      if s !in v { AddedTermId(v, stop, terms, s); }
      if t !in v { AddedTermId(v, stop, terms, t); }
    }
  }

  lemma MergeCovers(v: Vocab, stop: set<Term>, terms: seq<Term>)
    requires Contiguous(v)
    ensures var m := Merge(v, stop, terms).vocab;
            forall i: nat | i < |m| :: HasId(m, i)
  {
    var m := Merge(v, stop, terms).vocab;
    var added := NewTerms(v, terms);
    forall i: nat | i < |m|
      ensures HasId(m, i)
    {
      if i < |v| {
        assert HasId(v, i);
        var t :| t in v && v[t] == i;
        assert m[t] == i;
      } else {
        assert m[added[i - |v|]] == i;
      }
    }
  }

  /** After the merge the ids are again exactly 0 .. |merged|-1, the new ones following the old ones. */
  lemma MergeContiguous(v: Vocab, stop: set<Term>, terms: seq<Term>)
    requires Contiguous(v)
    ensures Contiguous(Merge(v, stop, terms).vocab)
    ensures |Merge(v, stop, terms).vocab| == |v| + |NewTerms(v, terms)|
    ensures forall t | t in Merge(v, stop, terms).vocab && t !in v :: Merge(v, stop, terms).vocab[t] >= |v|
  {
    var m := Merge(v, stop, terms).vocab;
    forall t | t in m
      ensures m[t] < |m|
      ensures t !in v ==> m[t] >= |v|
    {
      if t !in v { AddedTermId(v, stop, terms, t); }
    }
    MergeInjective(v, stop, terms);
    MergeCovers(v, stop, terms);
  }

  /** A visit never changes the id of a term already in the dictionary. */
  lemma VisitKeepsIds(v: Vocab, stop: set<Term>, terms: seq<Term>, t: Term)
    requires |terms| > 0 && t in Merge(v, stop, terms[..|terms| - 1]).vocab
    ensures Merge(v, stop, terms).vocab[t] == Merge(v, stop, terms[..|terms| - 1]).vocab[t]
  {
  }

  /** The last term of the batch, when new, gets an id above every id given before it. */
  lemma LastNewTermOnTop(v: Vocab, stop: set<Term>, terms: seq<Term>, a: nat)
    requires Contiguous(v) && Distinct(terms)
    requires a < |terms| - 1 && terms[a] !in v && terms[|terms| - 1] !in v
    ensures Merge(v, stop, terms).vocab[terms[a]] < Merge(v, stop, terms).vocab[terms[|terms| - 1]]
  {
    var prefix := terms[..|terms| - 1];
    var before := Merge(v, stop, prefix);
    MergeContiguous(v, stop, prefix);
    assert terms[a] == prefix[a];
    assert terms[|terms| - 1] !in prefix;
    assert before.vocab[terms[a]] < before.next;
  }

  /** Terms new to the vocabulary receive ids in the order the batch vocabulary lists them. */
  lemma {:induction false} NewIdsFollowBatchOrder(v: Vocab, stop: set<Term>, terms: seq<Term>, a: nat, b: nat)
    requires Contiguous(v) && Distinct(terms)
    requires a < b < |terms| && terms[a] !in v && terms[b] !in v
    ensures Merge(v, stop, terms).vocab[terms[a]] < Merge(v, stop, terms).vocab[terms[b]]
  {
    var prefix := terms[..|terms| - 1];
    if b == |terms| - 1 {
      LastNewTermOnTop(v, stop, terms, a);
    } else {
      assert prefix[a] == terms[a] && prefix[b] == terms[b];
      NewIdsFollowBatchOrder(v, stop, prefix, a, b);
      VisitKeepsIds(v, stop, terms, terms[a]);
      VisitKeepsIds(v, stop, terms, terms[b]);
    }
  }

  /** Merging the same batch a second time changes neither the vocabulary nor the stop list. */
  lemma MergeIdempotent(v: Vocab, stop: set<Term>, terms: seq<Term>)
    ensures var once := MergeVocabulary(v, stop, terms);
            MergeVocabulary(once.0, once.1, terms) == once
  {
    var once := Merge(v, stop, terms);
    var twice := Merge(once.vocab, once.stop, terms);
    var none := NewTerms(once.vocab, terms);
    assert twice.vocab.Keys == once.vocab.Keys;
    assert twice.vocab == once.vocab;
    assert twice.stop == once.stop;
  }
}
